=== FILE: README.md ===
# sdcounter in Dafny

A model of the core of `sdcounter`, an on-screen counter that draws the time
as eight sprite glyphs "HH:MM:SS" in a resizable window. It counts up from
zero, counts down from a duration, or follows the wall clock, and the space
key pauses it. Everything modelled lives in `main.c`. The model has one module
per concern:

- `TimeParser` (time_parser.dfy): `parse_time`. It reads a duration such as
  "1h30m": a number as `strtof` reads it, then a unit `s`, `m` or `h`, or the
  end of the text, repeated. The loop is the method `ParseTime`, proved equal
  to the recursive specification `Parse`. The two `exit(1)` paths ("not a
  number", "unknown time unit") are the `Err` values of a `Result`.
- `Durations` (same file): durations written as numeral/unit terms, and the
  round trip `Parse(Format(ts)) == Ok(Total(ts))`.
- `Arguments` (arguments.dfy): the fold over `argv` in `main`. The specification
  `Configure` applies the arguments left to right. The loop `ParseArgs` is proved
  equal to it. Lemmas characterise the outcome: the exit status, the pause flag,
  the mode and the starting time.
- `FrameTime` (frame_time.dfy): the per-frame time step of the three modes,
  and what many frames do.
- `Display` (display.dfy): `ceilf(fmaxf(t, 0))` and the split into the eight
  glyph columns.
- `Layout` (layout.dfy): `context_init_coordinates`, which is the fit scale,
  the floored glyph size and the centred origin, with C's truncating integer
  division.
- `Sprite` (sprite.dfy): the sprite row counter, its reset in
  `context_render_char` and its cooldown at the end of every frame.
- `Counter` (counter.dfy): the `Context` structure as a class whose methods
  update its fields in place. It covers `context_render_char`, the drawing
  block, the event loop, one pass of the main loop (`Frame`) and the main loop
  itself (`Run`). Drawing is recorded in a ghost field `drawn`, the copies made
  from the digit sheet since the renderer was last cleared.

Floats are modelled as exact reals. So one frame is exactly 1/60 s, the sprite
duration 0.4/3 s is exactly eight frames, and `1e-6` is the exact threshold.
The window size, the frame's events and the wall clock are parameters.

Three behaviours of the code are easy to miss, and the model keeps them:

- A running countdown can leave a stored value just below zero, for example
  from 0.01 to 0.01 - 1/60. Only the next frame snaps it to 0. The display is
  still never negative because of the clamp before `ceilf`
  (`FrameTime.NegativeExcursion`, `FrameTime.CountdownBounds`).
- The last of "clock" and a duration decides the mode. "90s clock" therefore
  gives clock mode, and the stored time stays 90 until the first running frame
  (`Arguments.DurationThenClock`).
- Between frames the sprite counter can be 3. The reset to row 0 happens when
  the next glyph is drawn (`Sprite.Valid`, `Sprite.DrawRow`).

## Model

| member | source | states |
|---|---|---|
| TimeParser.IsSpace | main.c:167 | the white space `strtof` skips before a number: a blank, or a character from tab to carriage return, as C's `isspace` accepts |
| TimeParser.NumberAt | main.c:167 | what `strtof` converts ends past the cursor and inside the text, so the parse loop always moves on |
| TimeParser.MantissaFrom | main.c:167 | the digits and at most one point with a fraction that `strtof` reads from a mantissa, as their value and the index past them; when it converts something it ends past the start and no earlier than the digits already read |
| TimeParser.MantissaFromNone | main.c:167 | the digit scan of a mantissa converts nothing exactly when neither a digit nor a point followed by a digit starts it |
| TimeParser.NumberAtNone | main.c:166-169 | `strtof` leaves the end pointer at the cursor exactly when, after white space and one sign, neither a digit nor a point and a digit follow; otherwise it ends past the start of the mantissa |
| TimeParser.InSeconds | main.c:176-178 | seconds are taken as they are; minutes and hours scale a non-negative number up |
| TimeParser.ParseFrom | main.c:161-189 | what `parse_time` returns for the text from a cursor on: the empty rest is 0; a failed number conversion is "not a number" for the rest; a number at the end counts as seconds; a character after a number other than `s`, `m` or `h` is "unknown time unit"; otherwise the term's seconds plus what follows the unit |
| TimeParser.Parse | main.c:161-189 | `parse_time` on a whole text, from its first character |
| TimeParser.Shift | main.c:176-178 | adding a term's seconds to a parse keeps its errors unchanged and adds exactly that amount to a success |
| TimeParser.ParseFromTerm | main.c:167-185 | a number followed by a unit adds its seconds to what the text after the unit parses to |
| TimeParser.NotANumberPointsIntoText | main.c:169-172 | a "not a number" error carries a suffix of the text at which `strtof` converts nothing |
| TimeParser.UnknownUnitPointsIntoText | main.c:179-181 | an "unknown time unit" error carries a character of the text that is not `s`, `m` or `h` |
| TimeParser.ParseTime | main.c:161-189 | the cursor loop returns exactly `Parse(text)`; its invariant is that the text parses to the running total plus whatever the rest of the text parses to |
| Durations.NumeralAt | main.c:167 | a run of digits followed by the end or by a character other than a digit or a point is converted as exactly that whole number, ending just after it |
| Durations.StepsTotal | main.c:165-186 | term-by-term steps of a parse add up to the total of the terms |
| Durations.ParseFromFormat | main.c:165-186 | inside any text, the text of well-formed terms contributes exactly their total to the parse |
| Durations.ParseFormat | main.c:161-189 | round trip: well-formed terms formatted and then parsed give their total in seconds |
| Durations.ParseBareNumeral | main.c:175-176 | a bare number at the end of the text counts as seconds |
| Durations.OneHourThirtyMinutes | main.c:161-189 | "1h30m" is 5400 seconds |
| Durations.OneHourThirty | main.c:165-186 | "1h30" is 3630 seconds: the cursor steps over the unit, and the trailing number is seconds |
| Durations.NinetySeconds | main.c:176 | "90s" is 90 seconds |
| Durations.MissingNumberAfterUnit | main.c:169-172 | "1hm" fails with "not a number" at "m" |
| Durations.UnknownUnitX | main.c:179-181 | "1x" fails with unknown unit 'x' |
| Durations.NotANumberAbc | main.c:169-172 | "abc" fails with "not a number" for the whole text |
| Durations.OneAndAHalfMinutes | main.c:167-177 | `strtof` takes a fraction: "1.5m" is 90 seconds |
| Durations.MinusTenSeconds | main.c:167-176 | `strtof` takes a sign: "-10s" is minus ten seconds |
| Arguments.NoArguments | main.c:204-206 | with no arguments the counter starts counting up from 0, not paused: the initial configuration `Arguments.Initial` that the fold starts from |
| Arguments.Halts | main.c:212-219 | an argument ends the program when it is "help", or when it is a duration that `parse_time` rejects, which exits at main.c:171 or main.c:181 |
| Arguments.ExitCode | main.c:212-219 | the status a halting argument ends the program with: 0 for "help" (line 214), 1 for a rejected duration (the `exit(1)` calls at lines 171 and 181) |
| Arguments.FirstHalt | main.c:212-219 | the index of the first argument that ends the program ("help" or an unparsable duration), with every earlier argument not ending it |
| Arguments.LastSetting | main.c:210-219 | the index of the last argument other than "pause", with all later ones "pause" |
| Arguments.LastDuration | main.c:217-219 | the index of the last duration argument, with no duration after it |
| Arguments.Apply | main.c:210-220 | one argument: "clock" sets clock mode, "help" exits with 0, "pause" sets the pause flag, anything else parses as a duration and sets countdown mode with that time, or exits with 1 when it does not parse |
| Arguments.Configure | main.c:208-221 | the arguments applied left to right from counting up at 0, not paused; the first exit ends the fold |
| Arguments.ExitSticks | main.c:212-214 | once the arguments read so far exit, the rest never change the outcome |
| Arguments.ConfigureExit | main.c:208-221 | the program exits exactly when some argument halts it, with status 0 for "help" and 1 for a malformed duration, whichever comes first |
| Arguments.ConfigurePaused | main.c:215-216 | the counter starts paused exactly when "pause" is among the arguments |
| Arguments.ConfigureMode | main.c:210-218 | the mode is that of the last argument other than "pause": clock for "clock", countdown for a duration, counting up when there is none |
| Arguments.ConfigureTime | main.c:204-219 | the starting time is the value of the last duration, which parsed; with no duration it is 0 |
| Arguments.ParseArgs | main.c:204-221 | the argument loop returns exactly `Configure(args)`; its invariant is that the mode, flag and time so far are what the arguments read so far configure |
| Arguments.PausedCountdown | main.c:215-219 | "pause 10s" starts a paused ten-second countdown |
| Arguments.DurationThenClock | main.c:210-219 | "90s clock" gives clock mode with the stored time still 90 |
| Arguments.HelpFirst | main.c:212-214 | "help" first exits with status 0 whatever follows |
| FrameTime.ClockSeconds | main.c:308-313 | a valid wall-clock reading gives between 0 and 86401 seconds |
| FrameTime.Advance | main.c:297-316 | a running frame: counting up adds 1/60; a countdown above 1e-6 takes 1/60 off and otherwise becomes 0; the clock takes the wall-clock seconds |
| FrameTime.Step | main.c:290-316 | a paused frame leaves the time unchanged |
| FrameTime.PausedFrozen | main.c:290 | any number of paused frames leave the time unchanged |
| FrameTime.After | main.c:290-316 | the time after one frame per wall-clock reading, first to last, with the pause flag fixed |
| FrameTime.AscendingAfter | main.c:298-300 | counting up adds exactly n/60 after n frames |
| FrameTime.CountdownStep | main.c:301-307 | a countdown frame above 1e-6 takes 1/60 off and stays above -1/60 and below where it was; at or below 1e-6 it gives exactly 0; it never increases a non-negative time |
| FrameTime.CountdownStaysZero | main.c:301-307 | a countdown at 0 stays at 0 |
| FrameTime.CountdownLinear | main.c:301-303 | while above the threshold, a countdown loses exactly 1/60 per frame |
| FrameTime.CountdownReachesZero | main.c:301-307 | a countdown from at most (n-1)/60 shows exactly 0 after n frames |
| FrameTime.CountdownBounds | main.c:301-307 | a running countdown never rises above its start (or 0) and never falls a whole frame below 0 |
| FrameTime.ClockAfter | main.c:308-313 | in clock mode the time after several frames is the last wall-clock reading |
| FrameTime.OneAndAHalfSecondCountdown | main.c:301-307 | 1.5 s counts down to exactly 0 in 90 frames, and is 1/60 after 89 |
| FrameTime.NegativeExcursion | main.c:301-306 | from 0.01 one countdown frame stores a negative time, and the next snaps it to 0 |
| Display.Ceil | main.c:266 | the least integer at or above its argument |
| Display.DisplaySeconds | main.c:266 | no time at or below zero shows as 0; a positive time shows as the whole number of seconds at or just above it |
| Display.Hours | main.c:268 | the whole hours in a number of seconds |
| Display.Minutes | main.c:273 | the minutes past the whole hours |
| Display.Seconds | main.c:278 | the seconds past the whole minutes |
| Display.Glyphs | main.c:268-280 | the eight sheet columns drawn for a time: tens and units of hours, colon, tens and units of minutes, colon, tens and units of seconds |
| Display.Decompose | main.c:268-278 | hours, minutes and seconds give back the seconds they came from, with minutes and seconds below 60 |
| Display.GlyphRanges | main.c:268-280 | colons in the third and sixth place, tens of minutes and seconds at most 5, units at most 9, tens of hours a digit exactly below 100 hours |
| Display.ReadOutGlyphs | main.c:268-280 | reading "HH:MM:SS" back gives the seconds drawn, below 100 hours |
| Display.GlyphsInjective | main.c:268-280 | different times below 100 hours draw different glyphs |
| Display.HundredHours | main.c:268-269 | at 100 hours the tens of hours are drawn with the colon's glyph |
| Display.ClockReadBack | main.c:266-280 | in clock mode, for a wall-clock second below 60, the display shows the wall clock's own hour, minute and second |
| Display.PartialSecondShowsOne | main.c:266 | a hundredth of a second left still shows "00:00:01" |
| Layout.CDiv | main.c:135-136 | C division agrees with floor division on non-negative operands |
| Layout.FitScale | main.c:125-131 | the fit scale is positive, the text fits the window at it, and it fills the width or the height exactly |
| Layout.FitByWidth | main.c:125-131 | the fit is by width exactly when the window is narrower in proportion than the text |
| Layout.EffectiveSize | main.c:133-134 | a glyph side is its length at both scales, floored to whole pixels |
| Layout.EffectiveWidth | main.c:133 | a glyph's width on screen, from the sheet's glyph width |
| Layout.EffectiveHeight | main.c:134 | a glyph's height on screen, from the sheet's glyph height |
| Layout.OriginX | main.c:135 | the left edge of the row: half the window's width less half the row's width, each halved with C's truncating division |
| Layout.OriginY | main.c:136 | the top edge of the row: half the window's height less half a glyph's height, each halved with C's truncating division |
| Layout.ScaledDown | main.c:133-134 | at a user scale up to 1 a glyph side is non-negative and no more than its length at the fit scale |
| Layout.GlyphsFit | main.c:133-134 | eight glyphs fit the window's width and one fits its height |
| Layout.RowFits | main.c:120-137 | the centred row lies inside the window; the left and right margins differ by 0 or 1 pixel, the top and bottom margins by at most 1 |
| Layout.ExactFill | main.c:120-137 | a window exactly the text's size is filled at scale 1 from the corner |
| Layout.DefaultWindow | main.c:65-66 | the 800 by 600 window gives 100 by 126 pixel glyphs with the row at (0, 237) |
| Sprite.DrawRow | main.c:141 | a glyph is drawn from a sheet row in [0, 3), and the row is kept when already in range |
| Sprite.Tick | main.c:284-288 | the end of a frame: a spent cooldown (at or below 0) moves the row counter on and restarts the cooldown at 0.4/3 s; then the cooldown loses 1/60 s |
| Sprite.Frame | main.c:141-288 | one whole frame of the animation: the counter reset of the first glyph drawn (line 141), then the cooldown tick of lines 284-288 |
| Sprite.Iterate | main.c:284-288 | the animation state after a given number of frames |
| Sprite.StartValid | main.c:116-288 | the start state `Sprite.Start` (row 0 from the zeroed context, a cooldown of 0.4/3 s, exactly eight frames) is a state the program can be in; because the cooldown is tested (line 284) before a frame is taken off it (line 288), row 0 is drawn in frames 0 to 8, nine frames, and frame 9 draws row 1 |
| Sprite.CoolDown | main.c:284-288 | while cooldown is left, each frame takes one frame off it and keeps the row |
| Sprite.FrameValid | main.c:141 | a frame keeps the animation state reachable, and draws from an existing row |
| Sprite.IterateValid | main.c:284-288 | every state reached over any number of frames is reachable |
| Sprite.IterateAdd | main.c:284-288 | m + n frames are m frames followed by n frames |
| Sprite.EightFrames | main.c:284-288 | with seven frames of cooldown left, the next eight frames draw one row and move on to the next |
| Sprite.RowCycle | main.c:141 | the rows cycle 0, 1, 2: frame 1 + 8k draws row k mod 3 |
| Counter.RowBlits | main.c:145-158 | the copies that draw a sequence of glyphs from one sheet row: one per glyph, its source the glyph's column and the row, its destination one glyph further right each time |
| Counter.Presses | main.c:243-245 | the number of space-key presses among a frame's events, each of which flips the pause flag |
| Counter.PressesSnoc | main.c:243-245 | one more event adds one press exactly when it is a space press |
| Counter.FramesRun | main.c:232-239 | the main loop runs up to and including the first frame that closes the window |
| Counter.Context.constructor | main.c:225-230 | a zeroed context with the sprite cooldown and user scale set and the command line's time, mode and pause flag |
| Counter.Context.Shows | main.c:120-158 | what the renderer and the context hold after a frame's drawing: the fit scale for the window, the row of copies for the time shown, and the corner one row's width right of the centred origin |
| Counter.Context.InitCoordinates | main.c:120-137 | sets the fit scale for the window, and the corner at the centred origin for the glyph size |
| Counter.Context.RenderChar | main.c:139-159 | resets a sprite row past the sheet, copies the glyph's cell at the corner, and moves the corner one glyph right |
| Counter.Context.RenderNext | main.c:139-159 | one `RenderChar` extends the row drawn so far by the next cell |
| Counter.Context.DrawTime | main.c:263-280 | draws exactly the glyphs of the displayed time from one sheet row, left to right from the centred origin |
| Counter.Context.TickSprite | main.c:284-288 | the cooldown update of the animation |
| Counter.Context.StepTime | main.c:290-316 | the time takes one step in the context's mode unless paused |
| Counter.Context.TogglePause | main.c:243-245 | the space key flips the pause flag |
| Counter.Context.HandleEvents | main.c:234-259 | after a frame's events the quit flag is set exactly when it already was or an event closed the window, and the pause flag is flipped by the parity of the space presses |
| Counter.Context.Frame | main.c:232-326 | one pass: the fit scale is that of the frame's window, the renderer holds exactly the row for the time at the frame's start, and the corner ends one row's width right of the centred origin; the animation takes one frame; the time steps with the pause flag after the events; the animation state stays reachable |
| Counter.Next | main.c:243-316 | one frame's effect on the pause flag and the displayed time: each space press among the frame's events flips the flag, then the time takes one step in the mode unless paused |
| Counter.Replay | main.c:232-316 | the pause flag and time after a run of frames: `Next` applied to each frame in turn, first to last |
| Counter.Context.Run | main.c:232-326 | the loop runs exactly the frames up to the first quit; the animation is that many frames on; the pause flag and time are the replay of those frames; after at least one frame, the fit scale, the drawn row and the corner are those of the last frame's window and of the time replayed up to it; when no frame runs, the fit scale, the drawn row and the corner keep their values |
| Counter.ReplayPrefix | main.c:232-316 | replaying one more frame is one more step of the timer |
| Counter.ReplayPaused | main.c:243-245 | after any run the counter is paused exactly when it started paused and the total space presses were even, or the reverse |
| Counter.QuietReplay | main.c:290-316 | with no space presses the pause flag stays, and the time is the time step alone applied to the wall-clock readings |
| Counter.RowInWindow | main.c:145-157 | every copy of a frame's row lies inside the window |
| Counter.ColumnsOfRow | main.c:146 | the sheet columns the copies are taken from are the glyphs drawn |
| Counter.RowShowsTime | main.c:145-150 | reading the columns off a drawn row gives back the seconds shown, below 100 hours |

## Left out

- SDL initialisation, window and renderer creation, PNG and texture loading,
  colour modulation and the `scc`/`sccp` error wrappers are left out. They are
  calls into a library the model cannot see.
- The F11 key is left out. Its fullscreen toggle touches only the window, so the
  model treats it like any other event.
- The background colour, `SDL_RenderPresent` and `SDL_Delay` are left out
  because they are output and timing. `SDL_RenderClear` is modelled as emptying
  the ghost `drawn` log.
- `usage` is left out because it only prints. "help" is modelled by its exit
  status 0.
- `time`/`localtime` become the `WallTime` parameter of each frame.
  `SDL_GetWindowSize` becomes the frame's width and height, which must be
  positive.
- Single-precision rounding is not modelled: `strtof`'s rounding, the
  accumulated error of adding 1/60, `0.40f / 3` and the float products in the
  layout. All arithmetic is exact on reals.
- `TimeParser.NumberAt` models `strtof`'s decimal forms only: leading white
  space, an optional sign, digits with an optional fraction. Exponents,
  hexadecimal floats, "inf" and "nan" are not modelled.
- `Display.DisplaySeconds` does not model the `size_t` cast overflowing for
  times beyond its range.
- Texts are taken to contain no NUL character. A C string ends at its first
  `'\0'`, while the model reads `'\0'` as an ordinary character.
- `argv[0]` is not part of the model. The argument list starts after the
  program name.
- The `fit_scale = 1.0f` assignment before `context_init_coordinates` is
  modelled, but it is overwritten at once, so nothing depends on it.
- `Counter.Context.Run` runs over a finite list of frame inputs and stops when
  they run out. The program's loop runs until the window is closed.

=== FILE: arguments.dfy ===
/**
 * The command line: the arguments after the program name, read left to
 * right, choose the mode, whether the counter starts paused and the time
 * it starts from; "help" and a malformed duration end the program.
 */
module Arguments {
  import opened TimeParser
  import opened FrameTime
  import Durations

  /** What the counter starts with. */
  datatype Config = Config(mode: Mode, paused: bool, time: real)

  /** Either the counter starts with a configuration, or the program exits with a status. */
  datatype Launch = Start(config: Config) | Exit(code: int)

  /** With no arguments the counter counts up from zero, running. */
  const Initial: Config := Config(Ascending, false, 0.0)

  /** An argument that is not one of the three words is a duration. */
  predicate IsDuration(arg: string)
  {
    arg != "clock" && arg != "help" && arg != "pause"
  }

  /** One argument applied to the configuration built so far. */
  function Apply(c: Config, arg: string): Launch
  {
    if arg == "clock" then Start(c.(mode := Clock))
    else if arg == "help" then Exit(0)
    else if arg == "pause" then Start(c.(paused := true))
    else
      match Parse(arg)
      case Ok(v) => Start(c.(mode := Countdown, time := v))
      case Err(_) => Exit(1)
  }

  /** The arguments applied one after another from the initial configuration; the first exit ends it. */
  function Configure(args: seq<string>): Launch
    decreases |args|
  {
    if args == [] then Start(Initial)
    else
      match Configure(args[..|args| - 1])
      case Exit(code) => Exit(code)
      case Start(c) => Apply(c, args[|args| - 1])
  }

  /** The arguments that end the program, and the status each ends it with. */
  predicate Halts(arg: string)
  {
    arg == "help" || (IsDuration(arg) && Parse(arg).Err?)
  }

  function ExitCode(arg: string): int
  {
    if arg == "help" then 0 else 1
  }

  /** The index of the first argument that halts the program, or -1 when none does. */
  function FirstHalt(args: seq<string>): (r: int)
    ensures -1 <= r < |args|
    ensures r >= 0 ==> Halts(args[r])
    ensures forall j :: 0 <= j < |args| && (r < 0 || j < r) ==> !Halts(args[j])
    decreases |args|
  {
    if args == [] then -1
    else
      var r := FirstHalt(args[..|args| - 1]);
      if r >= 0 then r
      else if Halts(args[|args| - 1]) then |args| - 1
      else -1
  }

  /** The index of the last argument other than "pause", or -1 when there is none. */
  function LastSetting(args: seq<string>): (r: int)
    ensures -1 <= r < |args|
    ensures r >= 0 ==> args[r] != "pause"
    ensures forall j :: r < j < |args| ==> args[j] == "pause"
    decreases |args|
  {
    if args == [] then -1
    else if args[|args| - 1] != "pause" then |args| - 1
    else LastSetting(args[..|args| - 1])
  }

  /** The index of the last duration among the arguments, or -1 when there is none. */
  function LastDuration(args: seq<string>): (r: int)
    ensures -1 <= r < |args|
    ensures r >= 0 ==> IsDuration(args[r])
    ensures forall j :: r < j < |args| ==> !IsDuration(args[j])
    decreases |args|
  {
    if args == [] then -1
    else if IsDuration(args[|args| - 1]) then |args| - 1
    else LastDuration(args[..|args| - 1])
  }

  /** Once the arguments read so far exit, the rest are never read. */
  lemma {:induction false} ExitSticks(args: seq<string>, n: nat)
    requires n <= |args| && Configure(args[..n]).Exit?
    ensures Configure(args) == Configure(args[..n])
    decreases |args| - n
  {
    if n < |args| {
      var p := args[..|args| - 1];
      assert p[..n] == args[..n];
      ExitSticks(p, n);
    } else {
      assert args[..n] == args;
    }
  }

  /** Configure, one argument at a time: the last argument is applied to what the others configured. */
  lemma ConfigureLast(args: seq<string>)
    requires args != []
    ensures var p := args[..|args| - 1];
            Configure(args) == if Configure(p).Exit? then Configure(p) else Apply(Configure(p).config, args[|args| - 1])
  {
  }

  /**
   * The program exits exactly when some argument halts it, and then with
   * the status of the first such argument: 0 for "help", 1 for a malformed
   * duration.
   */
  lemma {:induction false} ConfigureExit(args: seq<string>)
    ensures Configure(args).Exit? <==> FirstHalt(args) >= 0
    ensures Configure(args).Exit? ==> Configure(args).code == ExitCode(args[FirstHalt(args)])
    decreases |args|
  {
    if args != [] {
      var p := args[..|args| - 1];
      ConfigureExit(p);
      ConfigureLast(args);
      if FirstHalt(p) >= 0 {
        assert args[FirstHalt(p)] == p[FirstHalt(p)];
      }
    }
  }

  /** The counter starts paused exactly when "pause" is among the arguments. */
  lemma {:induction false} ConfigurePaused(args: seq<string>)
    requires Configure(args).Start?
    ensures Configure(args).config.paused <==> "pause" in args
    decreases |args|
  {
    if args != [] {
      var n := |args| - 1;
      var p := args[..n];
      assert args == p + [args[n]];
      ConfigureLast(args);
      ConfigurePaused(p);
    }
  }

  /**
   * The mode is set by the last argument other than "pause": clock mode
   * for "clock", countdown for a duration; with no such argument the
   * counter counts up.
   */
  lemma {:induction false} ConfigureMode(args: seq<string>)
    requires Configure(args).Start?
    ensures var r := LastSetting(args);
            Configure(args).config.mode ==
              if r < 0 then Ascending else if args[r] == "clock" then Clock else Countdown
    decreases |args|
  {
    if args != [] {
      var p := args[..|args| - 1];
      ConfigureLast(args);
      ConfigureMode(p);
      var r := LastSetting(p);
      if r >= 0 {
        assert args[r] == p[r];
      }
    }
  }

  /**
   * The starting time is the value of the last duration among the
   * arguments, which parsed; with no duration it is zero.
   */
  lemma {:induction false} ConfigureTime(args: seq<string>)
    requires Configure(args).Start?
    ensures var r := LastDuration(args);
            && (r < 0 ==> Configure(args).config.time == 0.0)
            && (r >= 0 ==> Parse(args[r]).Ok? && Configure(args).config.time == Parse(args[r]).value)
    decreases |args|
  {
    if args != [] {
      var p := args[..|args| - 1];
      ConfigureLast(args);
      ConfigureTime(p);
      var r := LastDuration(p);
      if r >= 0 {
        assert args[r] == p[r];
      }
    }
  }

  /**
   * The command-line loop: reads the arguments in order, updating mode,
   * pause flag and time, and stops at "help" or at a duration it cannot
   * parse.
   */
  method ParseArgs(args: seq<string>) returns (l: Launch)
    ensures l == Configure(args)
  {
    var mode := Ascending;
    var paused := false;
    var time := 0.0;
    var i := 0;
    while i < |args|
      invariant 0 <= i <= |args|
      invariant Configure(args[..i]) == Start(Config(mode, paused, time))
      decreases |args| - i
    {
      var arg := args[i];
      assert args[..i + 1][..i] == args[..i];
      if arg == "clock" {
        mode := Clock;
      } else if arg == "help" {
        ExitSticks(args, i + 1);
        return Exit(0);
      } else if arg == "pause" {
        paused := true;
      } else {
        var r := ParseTime(arg);
        if r.Err? {
          ExitSticks(args, i + 1);
          return Exit(1);
        }
        mode := Countdown;
        time := r.value;
      }
      i := i + 1;
    }
    assert args[..|args|] == args;
    return Start(Config(mode, paused, time));
  }

  /** With no arguments the counter counts up from zero, running. */
  lemma NoArguments()
    ensures Configure([]) == Start(Config(Ascending, false, 0.0))
  {
  }

  /** "pause 10s" starts a paused ten-second countdown. */
  lemma PausedCountdown()
    ensures Configure(["pause", "10s"]) == Start(Config(Countdown, true, 10.0))
  {
    var args := ["pause", "10s"];
    assert args[..1] == ["pause"] && args[..1][..0] == [];
    assert Parse("10s") == Ok(10.0) by {
      assert NumeralValue("10") == 10.0 by {
        assert "10"[..1] == "1";
      }
      Durations.ParseFormat([Durations.Term("10", 's')]);
    }
  }

  /** A duration followed by "clock" gives clock mode, but the time parsed stays until the first running frame. */
  lemma DurationThenClock()
    ensures Configure(["90s", "clock"]) == Start(Config(Clock, false, 90.0))
  {
    var args := ["90s", "clock"];
    assert args[..1] == ["90s"] && args[..1][..0] == [];
    Durations.NinetySeconds();
  }

  /** "help" exits at once with status 0, whatever follows it. */
  lemma HelpFirst(rest: seq<string>)
    ensures Configure(["help"] + rest) == Exit(0)
  {
    var args := ["help"] + rest;
    assert args[..1] == ["help"] && args[..1][..0] == [];
    ExitSticks(args, 1);
  }
}

=== FILE: counter.dfy ===
/**
 * The running counter: the context the main loop updates in place, one
 * frame at a time. Drawing is recorded as a log of the copies made from
 * the digit sheet into the window; the window size, the events of a frame
 * and the wall clock come in as parameters.
 */
module Counter {
  import opened FrameTime
  import opened Display
  import opened Layout
  import opened Arguments
  import Sprite

  /** One copy from the digit sheet into the window: the source corner, the destination corner and size. */
  datatype Blit = Blit(srcX: int, srcY: int, dstX: int, dstY: int, width: int, height: int)

  /** The events the main loop reacts to: closing the window, the space key, F11, anything else. */
  datatype Event = Quit | SpaceKey | F11Key | Other

  /** What one frame of the main loop gets from outside: the window size, the events and the wall clock. */
  datatype FrameInput = FrameInput(width: int, height: int, events: seq<Event>, now: WallTime)

  /** The copies that draw `glyphs` from sheet row `row`, left to right from (x, y), each `w` by `h`. */
  function RowBlits(glyphs: seq<nat>, row: int, x: int, y: int, w: int, h: int): (r: seq<Blit>)
    ensures |r| == |glyphs|
  {
    seq(|glyphs|, k requires 0 <= k < |glyphs| =>
      Blit(glyphs[k] * SpriteCharWidth, row * SpriteCharHeight, x + k * w, y, w, h))
  }

  /** The number of space presses among `events`. */
  function Presses(events: seq<Event>): nat
  {
    if events == [] then 0 else (if events[0] == SpaceKey then 1 else 0) + Presses(events[1..])
  }

  /** The wall-clock readings of a run of frames. */
  function Nows(inputs: seq<FrameInput>): (r: seq<WallTime>)
    ensures |r| == |inputs| && forall k :: 0 <= k < |inputs| ==> r[k] == inputs[k].now
  {
    seq(|inputs|, k requires 0 <= k < |inputs| => inputs[k].now)
  }

  /** The number of frames the main loop runs on `inputs`: up to and including the first frame that closes the window. */
  function FramesRun(inputs: seq<FrameInput>): (n: nat)
    ensures n <= |inputs|
    ensures forall k :: 0 <= k < n - 1 ==> Quit !in inputs[k].events
    ensures n < |inputs| ==> n > 0 && Quit in inputs[n - 1].events
    decreases |inputs|
  {
    if inputs == [] then 0
    else if Quit in inputs[0].events then 1
    else 1 + FramesRun(inputs[1..])
  }

  class Context {
    var charX: int
    var charY: int
    var sprite: int
    var quit: bool
    var paused: bool
    var mode: Mode
    var displayedTime: real
    var spriteCooldown: real
    var fitScale: real
    var userScale: real
    /** The copies from the digit sheet made since the renderer was last cleared. */
    ghost var drawn: seq<Blit>

    /** The user scale never leaves (0, 1] and the animation state is one the program can reach. */
    ghost predicate Valid()
      reads this
    {
      0.0 < userScale <= 1.0 && Sprite.Valid(Sprite.Animation(sprite, spriteCooldown))
    }

    /**
     * What a frame in a window of `input`'s size leaves behind after
     * drawing time `t` from sheet row `row`: the scale fitted to the window,
     * the renderer holding exactly the glyphs of `t` from the centred origin,
     * and the corner just past the last glyph.
     */
    ghost predicate Shows(input: FrameInput, t: real, row: int)
      requires input.width > 0 && input.height > 0
      reads this
    {
      && fitScale == FitScale(input.width, input.height)
      && var ew, eh := EffectiveWidth(userScale, fitScale), EffectiveHeight(userScale, fitScale);
         var x, y := OriginX(input.width, ew), OriginY(input.height, eh);
         && drawn == RowBlits(Glyphs(DisplaySeconds(t)), row, x, y, ew, eh)
         && charX == x + GlyphCount * ew && charY == y
    }

    /** The animation part of the context. */
    function Animation(): Sprite.Animation
      reads this
    {
      Sprite.Animation(sprite, spriteCooldown)
    }

    /** A zeroed context with the sprite cooldown and user scale set, then the time, mode and pause flag from the command line. */
    constructor(config: Config)
      ensures Valid()
      ensures displayedTime == config.time && mode == config.mode && paused == config.paused
      ensures Animation() == Sprite.Start && userScale == 1.0
      ensures charX == 0 && charY == 0 && fitScale == 0.0 && !quit && drawn == []
    {
      charX := 0;
      charY := 0;
      sprite := 0;
      quit := false;
      fitScale := 0.0;
      spriteCooldown := Sprite.SpriteDuration;
      userScale := 1.0;
      displayedTime := config.time;
      mode := config.mode;
      paused := config.paused;
      drawn := [];
    }

    /** Fits the text to a window of w by h pixels and puts the row's corner where it is centred. */
    method InitCoordinates(w: int, h: int)
      requires w > 0 && h > 0
      modifies this`fitScale, this`charX, this`charY
      ensures fitScale == FitScale(w, h)
      ensures charX == OriginX(w, EffectiveWidth(userScale, fitScale))
      ensures charY == OriginY(h, EffectiveHeight(userScale, fitScale))
    {
      var textAspect := TextWidth as real / TextHeight as real;
      var windowAspect := w as real / h as real;
      if textAspect > windowAspect {
        fitScale := w as real / TextWidth as real;
      } else {
        fitScale := h as real / TextHeight as real;
      }
      var width := EffectiveWidth(userScale, fitScale);
      var height := EffectiveHeight(userScale, fitScale);
      charX := CDiv(w, 2) - CDiv(width * CharsCount, 2);
      charY := CDiv(h, 2) - CDiv(height, 2);
    }

    /** Draws glyph `number` at the row's current corner and moves the corner one glyph to the right. */
    method RenderChar(number: int)
      modifies this`sprite, this`charX, this`drawn
      ensures sprite == Sprite.DrawRow(old(sprite))
      ensures drawn == old(drawn) + [Blit(number * SpriteCharWidth, sprite * SpriteCharHeight, old(charX), charY,
                                          EffectiveWidth(userScale, fitScale), EffectiveHeight(userScale, fitScale))]
      ensures charX == old(charX) + EffectiveWidth(userScale, fitScale)
    {
      if sprite >= 3 {
        sprite := 0;
      }
      var width := EffectiveWidth(userScale, fitScale);
      var height := EffectiveHeight(userScale, fitScale);
      drawn := drawn + [Blit(number * SpriteCharWidth, sprite * SpriteCharHeight, charX, charY, width, height)];
      charX := charX + width;
    }

    /**
     * `RenderChar` seen as one step of drawing a row: with the glyphs `shown`
     * already drawn since `start` from corner (x, y) in cells of ew by eh,
     * the next glyph lands in the next cell.
     */
    method RenderNext(number: nat, ghost start: seq<Blit>, ghost shown: seq<nat>, ghost x: int, ghost y: int, ghost ew: int, ghost eh: int)
      requires drawn == start + RowBlits(shown, Sprite.DrawRow(sprite), x, y, ew, eh)
      requires charX == x + |shown| * ew && charY == y
      requires EffectiveWidth(userScale, fitScale) == ew && EffectiveHeight(userScale, fitScale) == eh
      modifies this`sprite, this`charX, this`drawn
      ensures sprite == Sprite.DrawRow(old(sprite))
      ensures drawn == start + RowBlits(shown + [number], sprite, x, y, ew, eh)
      ensures charX == x + |shown + [number]| * ew
    {
      RenderChar(number);
      RowStep(start, old(drawn), shown, number, sprite, x, y, ew, eh);
    }

    /** Draws the displayed time as "HH:MM:SS", centred in a window of w by h pixels. */
    method DrawTime(w: int, h: int)
      requires w > 0 && h > 0
      modifies this`fitScale, this`charX, this`charY, this`sprite, this`drawn
      ensures fitScale == FitScale(w, h) && sprite == Sprite.DrawRow(old(sprite))
      ensures var ew, eh := EffectiveWidth(userScale, fitScale), EffectiveHeight(userScale, fitScale);
              var x, y := OriginX(w, ew), OriginY(h, eh);
              && drawn == old(drawn) + RowBlits(Glyphs(DisplaySeconds(displayedTime)), sprite, x, y, ew, eh)
              && charX == x + GlyphCount * ew && charY == y
    {
      fitScale := 1.0;
      InitCoordinates(w, h);
      ghost var start, x, y := drawn, charX, charY;
      ghost var ew, eh := EffectiveWidth(userScale, fitScale), EffectiveHeight(userScale, fitScale);
      ghost var shown: seq<nat> := [];
      var t := DisplaySeconds(displayedTime);
      var hours := t / 60 / 60;
      RenderNext(hours / 10, start, shown, x, y, ew, eh);
      shown := shown + [hours / 10];
      RenderNext(hours % 10, start, shown, x, y, ew, eh);
      shown := shown + [hours % 10];
      RenderNext(Colon, start, shown, x, y, ew, eh);
      shown := shown + [Colon];
      var minutes := t / 60 % 60;
      RenderNext(minutes / 10, start, shown, x, y, ew, eh);
      shown := shown + [minutes / 10];
      RenderNext(minutes % 10, start, shown, x, y, ew, eh);
      shown := shown + [minutes % 10];
      RenderNext(Colon, start, shown, x, y, ew, eh);
      shown := shown + [Colon];
      var seconds := t % 60;
      RenderNext(seconds / 10, start, shown, x, y, ew, eh);
      shown := shown + [seconds / 10];
      RenderNext(seconds % 10, start, shown, x, y, ew, eh);
      shown := shown + [seconds % 10];
      assert shown == [hours / 10, hours % 10, Colon, minutes / 10, minutes % 10, Colon, seconds / 10, seconds % 10];
    }

    /** The end-of-frame sprite update: a spent cooldown moves the sprite on and restarts; the cooldown loses one frame. */
    method TickSprite()
      modifies this`sprite, this`spriteCooldown
      ensures Animation() == Sprite.Tick(old(Animation()))
    {
      if spriteCooldown <= 0.0 {
        sprite := sprite + 1;
        spriteCooldown := Sprite.SpriteDuration;
      }
      spriteCooldown := spriteCooldown - Delta;
    }

    /** The time step of a frame: nothing while paused, else up, down or from the wall clock by mode. */
    method StepTime(now: WallTime)
      modifies this`displayedTime
      ensures displayedTime == Step(mode, paused, old(displayedTime), now)
    {
      if !paused {
        match mode {
          case Ascending =>
            displayedTime := displayedTime + Delta;
          case Countdown =>
            if displayedTime > Epsilon {
              displayedTime := displayedTime - Delta;
            } else {
              displayedTime := 0.0;
            }
          case Clock =>
            displayedTime := now.second as real + now.minute as real * 60.0 + now.hour as real * 60.0 * 60.0;
        }
      }
    }

    /** The space key: pauses a running counter and resumes a paused one. */
    method TogglePause()
      modifies this`paused
      ensures paused == !old(paused)
    {
      paused := !paused;
    }

    /** Handles a frame's events in order: closing the window asks the loop to stop, each space press flips the pause. */
    method HandleEvents(events: seq<Event>)
      modifies this`quit, this`paused
      ensures quit == (old(quit) || Quit in events)
      ensures paused == (old(paused) != (Presses(events) % 2 == 1))
    {
      var i := 0;
      while i < |events|
        invariant 0 <= i <= |events|
        invariant quit == (old(quit) || Quit in events[..i])
        invariant paused == (old(paused) != (Presses(events[..i]) % 2 == 1))
        decreases |events| - i
      {
        PressesSnoc(events[..i], events[i]);
        assert events[..i + 1] == events[..i] + [events[i]];
        match events[i] {
          case Quit => quit := true;
          case SpaceKey => TogglePause();
          case F11Key =>
          case Other =>
        }
        i := i + 1;
      }
      assert events[..i] == events;
    }

    /** One pass of the main loop: events, clearing and drawing, the sprite tick, the time step. */
    method Frame(input: FrameInput)
      requires Valid() && input.width > 0 && input.height > 0
      modifies this`quit, this`paused, this`fitScale, this`charX, this`charY, this`sprite, this`drawn
      modifies this`spriteCooldown, this`displayedTime
      ensures Valid()
      ensures quit == (old(quit) || Quit in input.events)
      ensures paused == (old(paused) != (Presses(input.events) % 2 == 1))
      ensures Animation() == Sprite.Frame(old(Animation()))
      ensures displayedTime == Step(mode, paused, old(displayedTime), input.now)
      ensures Shows(input, old(displayedTime), Sprite.DrawRow(old(sprite)))
    {
      HandleEvents(input.events);
      drawn := [];
      DrawTime(input.width, input.height);
      TickSprite();
      StepTime(input.now);
      Sprite.FrameValid(old(Animation()));
    }

    /**
     * The main loop on a run of frame inputs: runs frames until one closes
     * the window or the inputs run out, and returns how many it ran.
     */
    method Run(inputs: seq<FrameInput>) returns (frames: nat)
      requires Valid() && !quit
      requires forall k :: 0 <= k < |inputs| ==> inputs[k].width > 0 && inputs[k].height > 0
      modifies this`quit, this`paused, this`fitScale, this`charX, this`charY, this`sprite, this`drawn
      modifies this`spriteCooldown, this`displayedTime
      ensures Valid()
      ensures frames == FramesRun(inputs)
      ensures quit <==> frames > 0 && Quit in inputs[frames - 1].events
      ensures Animation() == Sprite.Iterate(old(Animation()), frames)
      ensures Timer(paused, displayedTime) == Replay(mode, Timer(old(paused), old(displayedTime)), inputs[..frames])
      ensures frames > 0 ==>
                Shows(inputs[frames - 1], Replay(mode, Timer(old(paused), old(displayedTime)), inputs[..frames - 1]).time,
                      Sprite.DrawRow(Sprite.Iterate(old(Animation()), frames - 1).sprite))
      ensures frames == 0 ==>
                fitScale == old(fitScale) && drawn == old(drawn) && charX == old(charX) && charY == old(charY)
    {
      frames := 0;
      while !quit && frames < |inputs|
        invariant Valid()
        invariant 0 <= frames <= |inputs|
        invariant FramesRun(inputs) == if quit then frames else frames + FramesRun(inputs[frames..])
        invariant quit <==> frames > 0 && Quit in inputs[frames - 1].events
        invariant Animation() == Sprite.Iterate(old(Animation()), frames)
        invariant Timer(paused, displayedTime) == Replay(mode, Timer(old(paused), old(displayedTime)), inputs[..frames])
        invariant frames > 0 ==>
                    Shows(inputs[frames - 1], Replay(mode, Timer(old(paused), old(displayedTime)), inputs[..frames - 1]).time,
                          Sprite.DrawRow(Sprite.Iterate(old(Animation()), frames - 1).sprite))
        invariant frames == 0 ==>
                    fitScale == old(fitScale) && drawn == old(drawn) && charX == old(charX) && charY == old(charY)
        decreases |inputs| - frames
      {
        FramesRunStep(inputs, frames);
        ReplayPrefix(mode, Timer(old(paused), old(displayedTime)), inputs, frames);
        Frame(inputs[frames]);
        IterateSnoc(old(Animation()), frames);
        frames := frames + 1;
      }
      if !quit {
        assert FramesRun(inputs[frames..]) == 0;
      }
    }
  }

  /** One more copy, of the next glyph at the next place, extends the drawn row by one. */
  lemma RowStep(start: seq<Blit>, before: seq<Blit>, shown: seq<nat>, n: nat, row: int, x: int, y: int, w: int, h: int)
    requires before == start + RowBlits(shown, row, x, y, w, h)
    ensures before + [Blit(n * SpriteCharWidth, row * SpriteCharHeight, x + |shown| * w, y, w, h)]
            == start + RowBlits(shown + [n], row, x, y, w, h)
  {
  }

  lemma {:induction false} PressesSnoc(events: seq<Event>, e: Event)
    ensures Presses(events + [e]) == Presses(events) + (if e == SpaceKey then 1 else 0)
    decreases |events|
  {
    if events != [] {
      assert (events + [e])[1..] == events[1..] + [e];
      PressesSnoc(events[1..], e);
    }
  }

  lemma FramesRunStep(inputs: seq<FrameInput>, n: nat)
    requires n < |inputs|
    ensures FramesRun(inputs[n..]) == if Quit in inputs[n].events then 1 else 1 + FramesRun(inputs[n + 1..])
  {
    assert inputs[n..][1..] == inputs[n + 1..];
  }

  lemma IterateSnoc(a: Sprite.Animation, n: nat)
    ensures Sprite.Iterate(a, n + 1) == Sprite.Frame(Sprite.Iterate(a, n))
  {
    Sprite.IterateAdd(a, n, 1);
  }

  /** The pause flag and the displayed time: the part of the context the events and the time step change. */
  datatype Timer = Timer(paused: bool, time: real)

  /** One frame's effect on the timer: each space press flips the pause, then the time takes one step. */
  function Next(mode: Mode, s: Timer, input: FrameInput): Timer
  {
    var paused := s.paused != (Presses(input.events) % 2 == 1);
    Timer(paused, Step(mode, paused, s.time, input.now))
  }

  /** The timer after a run of frames. */
  function Replay(mode: Mode, s: Timer, inputs: seq<FrameInput>): Timer
    decreases |inputs|
  {
    if inputs == [] then s else Next(mode, Replay(mode, s, inputs[..|inputs| - 1]), inputs[|inputs| - 1])
  }

  /** The number of space presses over a run of frames. */
  function TotalPresses(inputs: seq<FrameInput>): nat
    decreases |inputs|
  {
    if inputs == [] then 0 else TotalPresses(inputs[..|inputs| - 1]) + Presses(inputs[|inputs| - 1].events)
  }

  lemma ReplayPrefix(mode: Mode, s: Timer, inputs: seq<FrameInput>, n: nat)
    requires n < |inputs|
    ensures Replay(mode, s, inputs[..n + 1]) == Next(mode, Replay(mode, s, inputs[..n]), inputs[n])
  {
    assert inputs[..n + 1][..n] == inputs[..n];
  }

  /** After a run the counter is paused exactly when it started paused and the presses were even, or the reverse. */
  lemma {:induction false} ReplayPaused(mode: Mode, s: Timer, inputs: seq<FrameInput>)
    ensures Replay(mode, s, inputs).paused == (s.paused != (TotalPresses(inputs) % 2 == 1))
    decreases |inputs|
  {
    if inputs != [] {
      ReplayPaused(mode, s, inputs[..|inputs| - 1]);
    }
  }

  /** Without space presses the pause flag stays and the time evolves as the time step alone makes it. */
  lemma {:induction false} QuietReplay(mode: Mode, s: Timer, inputs: seq<FrameInput>)
    requires forall k :: 0 <= k < |inputs| ==> Presses(inputs[k].events) == 0
    ensures Replay(mode, s, inputs) == Timer(s.paused, After(mode, s.paused, s.time, Nows(inputs)))
    decreases |inputs|
  {
    if inputs != [] {
      var p := inputs[..|inputs| - 1];
      QuietReplay(mode, s, p);
      assert Nows(inputs) == Nows(p) + [inputs[|inputs| - 1].now];
      AfterSnoc(mode, s.paused, s.time, Nows(p), inputs[|inputs| - 1].now);
    }
  }

  lemma {:induction false} AfterSnoc(mode: Mode, paused: bool, t: real, nows: seq<WallTime>, now: WallTime)
    ensures After(mode, paused, t, nows + [now]) == Step(mode, paused, After(mode, paused, t, nows), now)
    decreases |nows|
  {
    if nows != [] {
      assert (nows + [now])[1..] == nows[1..] + [now];
      AfterSnoc(mode, paused, Step(mode, paused, t, nows[0]), nows[1..], now);
    }
  }

  /**
   * The row drawn in a frame lies inside the window: every copy starts at
   * or right of the left edge and below the top edge and ends inside the
   * right and bottom edges.
   */
  lemma RowInWindow(w: int, h: int, userScale: real, glyphs: seq<nat>, row: int)
    requires w > 0 && h > 0 && 0.0 < userScale <= 1.0 && |glyphs| == GlyphCount
    ensures var f := FitScale(w, h);
            var ew, eh := EffectiveWidth(userScale, f), EffectiveHeight(userScale, f);
            var r := RowBlits(glyphs, row, OriginX(w, ew), OriginY(h, eh), ew, eh);
            forall k :: 0 <= k < |r| ==>
              0 <= r[k].dstX && r[k].dstX + r[k].width <= w && 0 <= r[k].dstY && r[k].dstY + r[k].height <= h
  {
    var f := FitScale(w, h);
    var ew, eh := EffectiveWidth(userScale, f), EffectiveHeight(userScale, f);
    RowFits(w, h, userScale);
    GlyphsFit(w, h, userScale);
    var x := OriginX(w, ew);
    var r := RowBlits(glyphs, row, x, OriginY(h, eh), ew, eh);
    forall k | 0 <= k < |r|
      ensures 0 <= r[k].dstX && r[k].dstX + r[k].width <= w
    {
      CellInRow(k, x, ew, w);
    }
  }

  /** The k-th of eight cells of width `ew` from `x` lies inside [0, w] when the whole row does. */
  lemma CellInRow(k: int, x: int, ew: int, w: int)
    requires 0 <= k < CharsCount && 0 <= ew && 0 <= x && x + CharsCount * ew <= w
    ensures 0 <= x + k * ew && x + k * ew + ew <= w
  {
    assert k * ew + ew == (k + 1) * ew <= CharsCount * ew;
  }

  /** The glyph columns read off a row of copies: each source corner divided by the cell width. */
  function Columns(r: seq<Blit>): (c: seq<int>)
    ensures |c| == |r|
  {
    seq(|r|, k requires 0 <= k < |r| => r[k].srcX / SpriteCharWidth)
  }

  /** The columns read off a drawn row are the glyphs it was drawn for. */
  lemma ColumnsOfRow(glyphs: seq<nat>, row: int, x: int, y: int, w: int, h: int)
    ensures Columns(RowBlits(glyphs, row, x, y, w, h)) == glyphs
  {
  }

  /** Reading the glyph columns off a drawn row gives back the seconds shown, below 100 hours. */
  lemma RowShowsTime(t: real, row: int, x: int, y: int, w: int, h: int)
    requires DisplaySeconds(t) < 360000
    ensures ReadOut(Columns(RowBlits(Glyphs(DisplaySeconds(t)), row, x, y, w, h))) == DisplaySeconds(t)
  {
    ColumnsOfRow(Glyphs(DisplaySeconds(t)), row, x, y, w, h);
    ReadOutGlyphs(DisplaySeconds(t));
  }
}

=== FILE: display.dfy ===
/**
 * What the counter shows: the time clamped at zero, rounded up to whole
 * seconds, and split into the eight glyphs "HH:MM:SS" of the digit sheet
 * (glyphs 0 to 9 are the digits, glyph 10 the colon).
 */
module Display {
  import opened FrameTime

  /** The column of the colon in the digit sheet. */
  const Colon: nat := 10

  /** The number of glyphs drawn per frame. */
  const GlyphCount: nat := 8

  /** The least integer at or above `x` (C's `ceilf`, exactly). */
  function Ceil(x: real): (n: int)
    ensures n as real - 1.0 < x <= n as real
  {
    var f := x.Floor;
    if f as real == x then f else f + 1
  }

  /** The whole seconds shown for the stored time `t`: clamped at 0, then rounded up. */
  function DisplaySeconds(t: real): (n: nat)
    ensures t <= 0.0 ==> n == 0
    ensures t > 0.0 ==> n as real - 1.0 < t <= n as real
  {
    Ceil(if t > 0.0 then t else 0.0)
  }

  function Hours(n: nat): nat { n / 60 / 60 }

  function Minutes(n: nat): nat { n / 60 % 60 }

  function Seconds(n: nat): nat { n % 60 }

  /** The glyph columns drawn for `n` seconds, left to right. */
  function Glyphs(n: nat): (g: seq<nat>)
    ensures |g| == GlyphCount
  {
    [Hours(n) / 10, Hours(n) % 10, Colon,
     Minutes(n) / 10, Minutes(n) % 10, Colon,
     Seconds(n) / 10, Seconds(n) % 10]
  }

  /** The number of seconds a reader of eight glyphs "HH:MM:SS" takes them for. */
  function ReadOut(g: seq<int>): int
    requires |g| == GlyphCount
  {
    (g[0] * 10 + g[1]) * 3600 + (g[3] * 10 + g[4]) * 60 + g[6] * 10 + g[7]
  }

  /** Hours, minutes and seconds put back together give the seconds they came from. */
  lemma Decompose(n: nat)
    ensures Hours(n) * 3600 + Minutes(n) * 60 + Seconds(n) == n
    ensures Minutes(n) < 60 && Seconds(n) < 60
  {
    var q := n / 60;
    assert n == q * 60 + Seconds(n);
    assert q == Hours(n) * 60 + Minutes(n);
  }

  /**
   * The glyphs stay inside the digit sheet: colons at the third and sixth
   * place, tens of minutes and seconds at most 5, units at most 9. The tens
   * of hours are a digit only below 100 hours; from there on they reach the
   * colon's column and beyond.
   */
  lemma GlyphRanges(n: nat)
    ensures var g := Glyphs(n);
            && g[2] == Colon && g[5] == Colon
            && g[3] <= 5 && g[6] <= 5
            && g[1] <= 9 && g[4] <= 9 && g[7] <= 9
            && (g[0] <= 9 <==> n < 360000)
  {
    Decompose(n);
    assert Hours(n) < 100 <==> n < 360000 by {
      assert Hours(n) == n / 3600;
    }
  }

  /** Reading the glyphs back gives the number of seconds, as long as the hours fit two digits. */
  lemma ReadOutGlyphs(n: nat)
    requires n < 360000
    ensures ReadOut(Glyphs(n)) == n
  {
    Decompose(n);
    assert Hours(n) < 100 by {
      assert Hours(n) == n / 3600;
    }
  }

  /** Different times below 100 hours never show the same glyphs. */
  lemma GlyphsInjective(n: nat, m: nat)
    requires n < 360000 && m < 360000 && Glyphs(n) == Glyphs(m)
    ensures n == m
  {
    ReadOutGlyphs(n);
    ReadOutGlyphs(m);
  }

  /** At 100 hours the tens of hours are drawn with the colon's glyph. */
  lemma HundredHours()
    ensures Glyphs(360000)[0] == Colon
  {
  }

  /** In clock mode the display shows the wall clock's own hour, minute and second. */
  lemma ClockReadBack(c: WallTime)
    requires ValidWallTime(c) && c.second < 60
    ensures var n := DisplaySeconds(ClockSeconds(c));
            Hours(n) == c.hour && Minutes(n) == c.minute && Seconds(n) == c.second
  {
    var k := c.second + c.minute * 60 + c.hour * 60 * 60;
    assert DisplaySeconds(ClockSeconds(c)) == k;
    assert k / 60 == c.minute + c.hour * 60;
  }

  /** A countdown a fraction of a second from its end still shows a whole second. */
  lemma PartialSecondShowsOne()
    ensures DisplaySeconds(0.01) == 1 && Glyphs(1)[7] == 1
  {
  }
}

=== FILE: frame_time.dfy ===
/**
 * How the counter's time moves from one frame to the next: up by one
 * frame's length, down towards zero, or copied from the wall clock, and
 * not at all while paused. Times are exact reals standing for the
 * program's single-precision floats.
 */
module FrameTime {

  /** The three ways the counter runs. */
  datatype Mode = Ascending | Countdown | Clock

  /** The wall-clock fields the clock mode reads (hour, minute and second of the local time). */
  datatype WallTime = WallTime(hour: nat, minute: nat, second: nat)

  /** The ranges C's `struct tm` gives these fields; a second of 60 is a leap second. */
  predicate ValidWallTime(c: WallTime)
  {
    c.hour < 24 && c.minute < 60 && c.second <= 60
  }

  /** The length of one frame at 60 frames per second. */
  const Delta: real := 1.0 / 60.0

  /** At or below this a running countdown snaps to zero. */
  const Epsilon: real := 0.000001

  /** The number of seconds since midnight the wall clock shows. */
  function ClockSeconds(c: WallTime): (r: real)
    ensures ValidWallTime(c) ==> 0.0 <= r < 86401.0
  {
    (c.second + c.minute * 60 + c.hour * 60 * 60) as real
  }

  /** The time after one running (not paused) frame in mode `mode`, when `now` is the wall clock. */
  function Advance(mode: Mode, t: real, now: WallTime): real
  {
    match mode
    case Ascending => t + Delta
    case Countdown => if t > Epsilon then t - Delta else 0.0
    case Clock => ClockSeconds(now)
  }

  /** The time after one frame: a paused counter keeps its time. */
  function Step(mode: Mode, paused: bool, t: real, now: WallTime): (r: real)
    ensures paused ==> r == t
  {
    if paused then t else Advance(mode, t, now)
  }

  /** The time after one frame per wall-clock reading in `nows`, first to last. */
  function After(mode: Mode, paused: bool, t: real, nows: seq<WallTime>): real
    decreases |nows|
  {
    if nows == [] then t else After(mode, paused, Step(mode, paused, t, nows[0]), nows[1..])
  }

  /** Pause freezes the time for any number of frames. */
  lemma {:induction false} PausedFrozen(mode: Mode, t: real, nows: seq<WallTime>)
    ensures After(mode, true, t, nows) == t
    decreases |nows|
  {
    if nows != [] {
      PausedFrozen(mode, t, nows[1..]);
    }
  }

  /** Counting up adds exactly one frame's length per frame. */
  lemma {:induction false} AscendingAfter(t: real, nows: seq<WallTime>)
    ensures After(Ascending, false, t, nows) == t + |nows| as real * Delta
    decreases |nows|
  {
    if nows != [] {
      AscendingAfter(t + Delta, nows[1..]);
    }
  }

  /**
   * One countdown frame: above the threshold it takes one frame's length
   * off, never leaving more than was there and never going as far as a
   * whole frame below zero; at or below the threshold it leaves exactly 0.
   */
  lemma CountdownStep(t: real, now: WallTime)
    ensures var r := Advance(Countdown, t, now);
            && (t > Epsilon ==> r == t - Delta && -Delta < r < t)
            && (t <= Epsilon ==> r == 0.0)
            && (t >= 0.0 ==> r <= t)
  {
  }

  /** A countdown at zero stays at zero. */
  lemma {:induction false} CountdownStaysZero(nows: seq<WallTime>)
    ensures After(Countdown, false, 0.0, nows) == 0.0
    decreases |nows|
  {
    if nows != [] {
      assert Step(Countdown, false, 0.0, nows[0]) == 0.0;
      CountdownStaysZero(nows[1..]);
    }
  }

  /** While it stays above the threshold, a countdown loses one frame's length per frame. */
  lemma {:induction false} CountdownLinear(t: real, nows: seq<WallTime>)
    requires t - (|nows| as real - 1.0) * Delta > Epsilon
    ensures After(Countdown, false, t, nows) == t - |nows| as real * Delta
    decreases |nows|
  {
    if nows != [] {
      assert t > Epsilon;
      CountdownLinear(t - Delta, nows[1..]);
    }
  }

  /** A countdown from at most n - 1 frames' length shows exactly zero after n frames. */
  lemma {:induction false} CountdownReachesZero(t: real, nows: seq<WallTime>)
    requires |nows| >= 1 && t <= (|nows| as real - 1.0) * Delta
    ensures After(Countdown, false, t, nows) == 0.0
    decreases |nows|
  {
    if t <= Epsilon {
      assert Step(Countdown, false, t, nows[0]) == 0.0;
      CountdownStaysZero(nows[1..]);
    } else {
      CountdownReachesZero(t - Delta, nows[1..]);
    }
  }

  /** A running countdown never climbs above where it started (or 0) and never falls a whole frame below zero. */
  lemma {:induction false} CountdownBounds(t: real, nows: seq<WallTime>)
    requires t > -Delta
    ensures var r := After(Countdown, false, t, nows);
            -Delta < r <= (if t > 0.0 then t else 0.0)
    decreases |nows|
  {
    if nows != [] {
      CountdownStep(t, nows[0]);
      CountdownBounds(Step(Countdown, false, t, nows[0]), nows[1..]);
    }
  }

  /** In clock mode only the latest wall-clock reading matters. */
  lemma {:induction false} ClockAfter(t: real, nows: seq<WallTime>)
    requires nows != []
    ensures After(Clock, false, t, nows) == ClockSeconds(nows[|nows| - 1])
    decreases |nows|
  {
    if |nows| > 1 {
      ClockAfter(ClockSeconds(nows[0]), nows[1..]);
    }
  }

  /** A countdown of 1.5 seconds shows zero after 90 frames, still 1/60 after 89. */
  lemma OneAndAHalfSecondCountdown(nows: seq<WallTime>)
    requires |nows| == 90
    ensures After(Countdown, false, 1.5, nows) == 0.0
    ensures After(Countdown, false, 1.5, nows[..89]) == Delta
  {
    CountdownLinear(1.5, nows);
    CountdownLinear(1.5, nows[..89]);
  }

  /** The stored countdown can go below zero: from 0.01 one frame leaves 0.01 - 1/60. */
  lemma NegativeExcursion(now: WallTime)
    ensures Advance(Countdown, 0.01, now) < 0.0
    ensures Advance(Countdown, Advance(Countdown, 0.01, now), now) == 0.0
  {
  }
}

=== FILE: layout.dfy ===
/**
 * Where the row of eight glyphs goes in a window of w by h pixels: the
 * scale that fits the text to the window, the glyph size in whole pixels
 * and the top-left corner that centres the row.
 */
module Layout {

  /** The size of one glyph in the digit sheet, and of the whole text at scale 1. */
  const CharWidth: int := 300 / 2
  const CharHeight: int := 380 / 2
  const CharsCount: int := 8
  const TextWidth: int := CharWidth * CharsCount
  const TextHeight: int := CharHeight

  /** The size of one glyph cell in the digit sheet. */
  const SpriteCharWidth: int := 300 / 2
  const SpriteCharHeight: int := 380 / 2

  /** C's `/` on `int`: the quotient truncated toward zero. */
  function CDiv(a: int, b: int): (q: int)
    requires b > 0
    ensures a >= 0 ==> q == a / b
  {
    if a >= 0 then a / b else -((-a) / b)
  }

  /**
   * The scale that fits the text to the window: by width when the text is
   * wider in proportion than the window, by height otherwise.
   */
  function FitScale(w: int, h: int): (f: real)
    requires w > 0 && h > 0
    ensures f > 0.0
    ensures TextWidth as real * f <= w as real && TextHeight as real * f <= h as real
    ensures TextWidth as real * f == w as real || TextHeight as real * f == h as real
  {
    var textAspect := TextWidth as real / TextHeight as real;
    var windowAspect := w as real / h as real;
    if textAspect > windowAspect then w as real / TextWidth as real
    else h as real / TextHeight as real
  }

  /** A glyph side of `length` pixels at the user's and the fit scale, floored to whole pixels. */
  function EffectiveSize(length: int, userScale: real, fitScale: real): (n: int)
    ensures n as real <= length as real * userScale * fitScale < n as real + 1.0
  {
    (length as real * userScale * fitScale).Floor
  }

  function EffectiveWidth(userScale: real, fitScale: real): int
  {
    EffectiveSize(CharWidth, userScale, fitScale)
  }

  function EffectiveHeight(userScale: real, fitScale: real): int
  {
    EffectiveSize(CharHeight, userScale, fitScale)
  }

  /** The left edge of the row: half the window less half the row, in C integer division. */
  function OriginX(w: int, width: int): int
    requires w > 0
  {
    CDiv(w, 2) - CDiv(width * CharsCount, 2)
  }

  /** The top edge of the row. */
  function OriginY(h: int, height: int): int
    requires h > 0
  {
    CDiv(h, 2) - CDiv(height, 2)
  }

  /** Fitting by width happens exactly when the window is narrower in proportion than the text. */
  lemma FitByWidth(w: int, h: int)
    requires w > 0 && h > 0
    ensures TextWidth * h > w * TextHeight ==> FitScale(w, h) == w as real / TextWidth as real
    ensures TextWidth * h <= w * TextHeight ==> FitScale(w, h) == h as real / TextHeight as real
  {
    var tw, th, wr, hr := TextWidth as real, TextHeight as real, w as real, h as real;
    assert tw / th > wr / hr <==> tw * hr > wr * th by {
      assert tw / th - wr / hr == (tw * hr - wr * th) / (th * hr);
    }
  }

  /** At a user scale up to 1 a glyph side is at most its length at the fit scale alone. */
  lemma ScaledDown(length: int, userScale: real, fitScale: real)
    requires length >= 0 && 0.0 < userScale <= 1.0 && fitScale > 0.0
    ensures 0 <= EffectiveSize(length, userScale, fitScale)
    ensures EffectiveSize(length, userScale, fitScale) as real <= length as real * fitScale
  {
    var x := length as real * fitScale;
    assert x >= 0.0;
    assert length as real * userScale * fitScale == userScale * x;
    assert x - userScale * x == (1.0 - userScale) * x;
  }

  /** At a user scale up to 1, glyphs at the fit scale fit: eight across the width, one down the height. */
  lemma GlyphsFit(w: int, h: int, userScale: real)
    requires w > 0 && h > 0 && 0.0 < userScale <= 1.0
    ensures var f := FitScale(w, h);
            && 0 <= EffectiveWidth(userScale, f) && CharsCount * EffectiveWidth(userScale, f) <= w
            && 0 <= EffectiveHeight(userScale, f) <= h
  {
    var f := FitScale(w, h);
    ScaledDown(CharWidth, userScale, f);
    ScaledDown(CharHeight, userScale, f);
    var ew := EffectiveWidth(userScale, f);
    assert (CharsCount * ew) as real == 8.0 * ew as real;
  }

  /**
   * The row of eight glyphs, placed at the centred origin, lies inside the
   * window, and the margins left and right (top and bottom) differ by at
   * most one pixel.
   */
  lemma RowFits(w: int, h: int, userScale: real)
    requires w > 0 && h > 0 && 0.0 < userScale <= 1.0
    ensures var f := FitScale(w, h);
            var ew, eh := EffectiveWidth(userScale, f), EffectiveHeight(userScale, f);
            var x, y := OriginX(w, ew), OriginY(h, eh);
            && 0 <= x && x + CharsCount * ew <= w
            && 0 <= y && y + eh <= h
            && 0 <= (w - (x + CharsCount * ew)) - x <= 1
            && -1 <= (h - (y + eh)) - y <= 1
  {
    GlyphsFit(w, h, userScale);
    var f := FitScale(w, h);
    var ew, eh := EffectiveWidth(userScale, f), EffectiveHeight(userScale, f);
    assert CDiv(CharsCount * ew, 2) == 4 * ew;
    assert w == 2 * (w / 2) + w % 2;
    assert h == 2 * (h / 2) + h % 2;
    assert eh == 2 * (eh / 2) + eh % 2;
  }

  /** A window of exactly the text's size is filled by the row at scale 1. */
  lemma ExactFill()
    ensures FitScale(TextWidth, TextHeight) == 1.0
    ensures EffectiveWidth(1.0, 1.0) == CharWidth && EffectiveHeight(1.0, 1.0) == CharHeight
    ensures OriginX(TextWidth, CharWidth) == 0 && OriginY(TextHeight, CharHeight) == 0
  {
  }

  /** The default 800 by 600 window fits by width: glyphs 100 by 126 pixels, the row at (0, 237). */
  lemma DefaultWindow()
    ensures FitScale(800, 600) == 2.0 / 3.0
    ensures EffectiveWidth(1.0, 2.0 / 3.0) == 100 && EffectiveHeight(1.0, 2.0 / 3.0) == 126
    ensures OriginX(800, 100) == 0 && OriginY(600, 126) == 237
  {
  }
}

=== FILE: sprite.dfy ===
/**
 * The animation of the digit sheet: each glyph is drawn from one of three
 * rows of the sheet, and the row moves on whenever a cooldown of 0.4/3
 * seconds has run out. Times are exact reals, so the cooldown is exactly
 * eight frames of 1/60 second long. The cooldown is tested before a frame
 * is taken off it, so the first row is drawn for nine frames and every
 * later row for eight.
 */
module Sprite {
  import opened FrameTime

  /** The number of rows in the digit sheet. */
  const SpriteCount: int := 3

  /** How long one row is shown. */
  const SpriteDuration: real := 0.40 / SpriteCount as real

  /** The animation state: the row counter and the time left until it moves on. */
  datatype Animation = Animation(sprite: int, cooldown: real)

  /** The state the program starts in: row 0, a full cooldown. */
  const Start: Animation := Animation(0, SpriteDuration)

  /** The row a glyph is drawn from: a counter that has run past the last row starts over at row 0. */
  function DrawRow(sprite: int): (row: int)
    ensures 0 <= sprite ==> 0 <= row < SpriteCount
    ensures 0 <= sprite < SpriteCount ==> row == sprite
  {
    if sprite >= SpriteCount then 0 else sprite
  }

  /** The end of a frame: a spent cooldown moves the counter on and restarts; the cooldown then loses one frame. */
  function Tick(a: Animation): Animation
  {
    var moved := a.cooldown <= 0.0;
    Animation(if moved then a.sprite + 1 else a.sprite,
              (if moved then SpriteDuration else a.cooldown) - Delta)
  }

  /** One whole frame: the glyphs are drawn (which starts the counter over if needed), then the cooldown ticks. */
  function Frame(a: Animation): Animation
  {
    Tick(Animation(DrawRow(a.sprite), a.cooldown))
  }

  /** The state after `n` frames. */
  function Iterate(a: Animation, n: nat): Animation
    decreases n
  {
    if n == 0 then a else Iterate(Frame(a), n - 1)
  }

  /** The states the program can be in: the counter at most one past the last row, the cooldown under one row's length and above minus one frame. */
  predicate Valid(a: Animation)
  {
    0 <= a.sprite <= SpriteCount && -Delta < a.cooldown <= SpriteDuration
  }

  /**
   * The start is a state the program can be in, with a cooldown eight frames
   * long. Row 0 is drawn in frames 0 to 8, nine frames, and frame 9 draws row 1.
   */
  lemma StartValid()
    ensures Valid(Start) && DrawRow(Start.sprite) == 0
    ensures Start.cooldown == 8.0 * Delta
    ensures forall n :: 0 <= n <= 8 ==> Iterate(Start, n) == Animation(0, (8 - n) as real * Delta)
    ensures Iterate(Start, 9) == Animation(1, 7.0 * Delta)
  {
    assert SpriteDuration == 8.0 * Delta;
    forall n | 0 <= n <= 8
      ensures Iterate(Start, n) == Animation(0, (8 - n) as real * Delta)
    {
      CoolDown(0, 8, n);
    }
    IterateAdd(Start, 8, 1);
    assert Iterate(Animation(0, 0.0), 1) == Iterate(Frame(Animation(0, 0.0)), 0);
  }

  /** While cooldown is left, each frame takes one frame off it and keeps the row. */
  lemma {:induction false} CoolDown(r: int, k: nat, j: nat)
    requires 0 <= r < SpriteCount && j <= k
    ensures Iterate(Animation(r, k as real * Delta), j) == Animation(r, (k - j) as real * Delta)
    decreases j
  {
    if j > 0 {
      assert Frame(Animation(r, k as real * Delta)) == Animation(r, (k - 1) as real * Delta);
      CoolDown(r, k - 1, j - 1);
    }
  }

  /** A frame keeps the state valid, and the row it draws from exists. */
  lemma FrameValid(a: Animation)
    requires Valid(a)
    ensures Valid(Frame(a))
    ensures 0 <= DrawRow(a.sprite) < SpriteCount
  {
  }

  /** Every state reached from the start is valid. */
  lemma {:induction false} IterateValid(a: Animation, n: nat)
    requires Valid(a)
    ensures Valid(Iterate(a, n))
    decreases n
  {
    if n > 0 {
      FrameValid(a);
      IterateValid(Frame(a), n - 1);
    }
  }

  lemma {:induction false} IterateAdd(a: Animation, m: nat, n: nat)
    ensures Iterate(a, m + n) == Iterate(Iterate(a, m), n)
    decreases m
  {
    if m > 0 {
      IterateAdd(Frame(a), m - 1, n);
    }
  }

  /** With seven frames of cooldown left, the next eight frames draw one row and end on the next row. */
  lemma EightFrames(s: int)
    requires 0 <= s <= SpriteCount
    ensures Iterate(Animation(s, 7.0 * Delta), 8) == Animation(DrawRow(s) + 1, 7.0 * Delta)
  {
    var r := DrawRow(s);
    assert SpriteDuration == 8.0 * Delta;
    var a := Animation(s, 7.0 * Delta);
    assert Frame(a) == Animation(r, 6.0 * Delta);
    assert Frame(Animation(r, 6.0 * Delta)) == Animation(r, 5.0 * Delta);
    assert Frame(Animation(r, 5.0 * Delta)) == Animation(r, 4.0 * Delta);
    assert Frame(Animation(r, 4.0 * Delta)) == Animation(r, 3.0 * Delta);
    assert Frame(Animation(r, 3.0 * Delta)) == Animation(r, 2.0 * Delta);
    assert Frame(Animation(r, 2.0 * Delta)) == Animation(r, Delta);
    assert Frame(Animation(r, Delta)) == Animation(r, 0.0);
    assert Frame(Animation(r, 0.0)) == Animation(r + 1, 7.0 * Delta);
    assert Iterate(Animation(r + 1, 7.0 * Delta), 0) == Animation(r + 1, 7.0 * Delta);
  }

  /**
   * The rows cycle 0, 1, 2, 0, ... : after the first frame, every block
   * of eight frames draws the next row, so frame 1 + 8k draws row k mod 3.
   */
  lemma {:induction false} RowCycle(k: nat)
    ensures var a := Iterate(Start, 1 + 8 * k);
            && 0 <= a.sprite <= SpriteCount && a.cooldown == 7.0 * Delta
            && DrawRow(a.sprite) == k % SpriteCount
  {
    if k == 0 {
      assert SpriteDuration == 8.0 * Delta;
      assert Iterate(Start, 1) == Iterate(Frame(Start), 0);
    } else {
      RowCycle(k - 1);
      IterateAdd(Start, 1 + 8 * (k - 1), 8);
      EightFrames(Iterate(Start, 1 + 8 * (k - 1)).sprite);
    }
  }
}

=== FILE: time_parser.dfy ===
/**
 * Duration strings such as "1h30m" or "45s", read the way `parse_time`
 * reads them: a numeric prefix, then one unit character, repeated until
 * the text is used up. Numbers are exact reals; the C library's `strtof`
 * is modelled by `NumberAt` on its decimal forms.
 */
module TimeParser {

  datatype Option<T> = None | Some(value: T)

  /** The two ways `parse_time` gives up (both end the process with status 1). */
  datatype ParseError =
    | NotANumber(rest: string)   // no number starts at the cursor; `rest` is the text from the cursor on
    | UnknownUnit(unit: char)    // the character after a number is not 's', 'm' or 'h'

  datatype Result<T> = Ok(value: T) | Err(error: ParseError)

  predicate IsDigit(c: char) { '0' <= c <= '9' }

  /** The characters C's `isspace` accepts: blank, and '\t' through '\r'. */
  predicate IsSpace(c: char) { c == ' ' || ('\t' <= c <= '\r') }

  predicate AllDigits(d: string) { forall i :: 0 <= i < |d| ==> IsDigit(d[i]) }

  /** The index just past the run of digits that starts at index `i` of `s`. */
  function DigitsFrom(s: string, i: nat): (j: nat)
    requires i <= |s|
    ensures i <= j <= |s|
    ensures j < |s| ==> !IsDigit(s[j])
    decreases |s| - i
  {
    if i < |s| && IsDigit(s[i]) then DigitsFrom(s, i + 1) else i
  }

  lemma {:induction false} DigitsFromAreDigits(s: string, i: nat)
    requires i <= |s|
    ensures AllDigits(s[i..DigitsFrom(s, i)])
    decreases |s| - i
  {
    if i < |s| && IsDigit(s[i]) {
      DigitsFromAreDigits(s, i + 1);
      assert s[i..DigitsFrom(s, i)] == [s[i]] + s[i + 1..DigitsFrom(s, i + 1)];
    }
  }

  /** The index just past the run of white space that starts at index `i` of `s`. */
  function SpacesFrom(s: string, i: nat): (j: nat)
    requires i <= |s|
    ensures i <= j <= |s|
    ensures j < |s| ==> !IsSpace(s[j])
    decreases |s| - i
  {
    if i < |s| && IsSpace(s[i]) then SpacesFrom(s, i + 1) else i
  }

  function DigitValue(c: char): (v: nat)
    requires IsDigit(c)
    ensures v <= 9
  {
    c as int - '0' as int
  }

  /** The value of a run of decimal digits, most significant first. */
  function NumeralValue(d: string): (v: real)
    requires AllDigits(d)
    ensures v >= 0.0
    decreases |d|
  {
    if d == [] then 0.0
    else 10.0 * NumeralValue(d[..|d| - 1]) + DigitValue(d[|d| - 1]) as real
  }

  /** The value of the digits after a decimal point: 0.d0 d1 d2 ... */
  function FractionValue(d: string): (v: real)
    requires AllDigits(d)
    ensures 0.0 <= v < 1.0
  {
    if d == [] then 0.0 else (DigitValue(d[0]) as real + FractionValue(d[1..])) / 10.0
  }

  /** Where the mantissa of a number read at index `i` starts: after white space and one optional sign. */
  function MantissaAt(s: string, i: nat): (a: nat)
    requires i <= |s|
    ensures SpacesFrom(s, i) <= a <= |s|
  {
    var w := SpacesFrom(s, i);
    if w < |s| && (s[w] == '+' || s[w] == '-') then w + 1 else w
  }

  /** A mantissa starts with a digit, or with a point followed by a digit. */
  predicate StartsMantissa(s: string, a: nat)
  {
    (a < |s| && IsDigit(s[a])) || (a + 1 < |s| && s[a] == '.' && IsDigit(s[a + 1]))
  }

  /**
   * The digits of a mantissa that starts at `a`, scanned up to `j`: the
   * scan goes on over digits, takes a point and the digits after it, and
   * stops at anything else. None when it took no digit at all.
   */
  function MantissaFrom(s: string, a: nat, j: nat): (p: Option<(real, nat)>)
    requires a <= j <= |s| && AllDigits(s[a..j])
    ensures p.Some? ==> a < p.value.1 <= |s| && j <= p.value.1
    decreases |s| - j
  {
    if j < |s| && IsDigit(s[j]) then
      assert s[a..j + 1] == s[a..j] + [s[j]];
      MantissaFrom(s, a, j + 1)
    else if j < |s| && s[j] == '.' then
      var f := DigitsFrom(s, j + 1);
      if j == a && f == j + 1 then None
      else
        DigitsFromAreDigits(s, j + 1);
        Some((NumeralValue(s[a..j]) + FractionValue(s[j + 1..f]), f))
    else if j == a then None
    else Some((NumeralValue(s[a..j]), j))
  }

  /**
   * The number `strtof` converts when handed the text from index `i` on,
   * with the index its end pointer is left at; None when it converts
   * nothing (the end pointer stays at `i`).
   */
  function NumberAt(s: string, i: nat): (p: Option<(real, nat)>)
    requires i <= |s|
    ensures p.Some? ==> i < p.value.1 <= |s|
    decreases |s| - i
  {
    if i < |s| && IsSpace(s[i]) then
      NumberAt(s, i + 1)
    else if i < |s| && (s[i] == '+' || s[i] == '-') then
      match MantissaFrom(s, i + 1, i + 1)
      case None => None
      case Some((x, e)) => Some((if s[i] == '-' then -x else x, e))
    else
      MantissaFrom(s, i, i)
  }

  /** The scan of a mantissa finds nothing exactly when no digit, or point and digit, starts it. */
  lemma {:induction false} MantissaFromNone(s: string, a: nat, j: nat)
    requires a <= j <= |s| && AllDigits(s[a..j])
    ensures MantissaFrom(s, a, j).None? <==> j == a && !StartsMantissa(s, a)
    decreases |s| - j
  {
    if j < |s| && IsDigit(s[j]) {
      assert s[a..j + 1] == s[a..j] + [s[j]];
      MantissaFromNone(s, a, j + 1);
    }
  }

  /**
   * `strtof` converts nothing exactly when, after the white space and the
   * sign, neither a digit nor a point and a digit follow; what it converts
   * ends past the start of the mantissa.
   */
  lemma {:induction false} NumberAtNone(s: string, i: nat)
    requires i <= |s|
    ensures NumberAt(s, i).None? <==> !StartsMantissa(s, MantissaAt(s, i))
    ensures NumberAt(s, i).Some? ==> MantissaAt(s, i) < NumberAt(s, i).value.1
    decreases |s| - i
  {
    if i < |s| && IsSpace(s[i]) {
      NumberAtNone(s, i + 1);
      assert SpacesFrom(s, i) == SpacesFrom(s, i + 1);
    } else if i < |s| && (s[i] == '+' || s[i] == '-') {
      MantissaFromNone(s, i + 1, i + 1);
    } else {
      MantissaFromNone(s, i, i);
    }
  }

  /** The unit characters `parse_time` accepts after a number (besides the end of the text). */
  predicate IsUnit(u: char) { u == 's' || u == 'm' || u == 'h' }

  /** `x` units of `u`, in seconds. */
  function InSeconds(x: real, u: char): (r: real)
    requires IsUnit(u)
    ensures x >= 0.0 ==> r >= x
    ensures u == 's' ==> r == x
  {
    match u
    case 's' => x
    case 'm' => x * 60.0
    case 'h' => x * 60.0 * 60.0
  }

  /** Adds `a` to a successful parse; passes an error through. */
  function Shift(a: real, r: Result<real>): (r': Result<real>)
    ensures r'.Err? <==> r.Err?
    ensures r.Err? ==> r' == r
    ensures r.Ok? ==> r'.value - a == r.value
  {
    match r
    case Ok(v) => Ok(a + v)
    case Err(e) => Err(e)
  }

  lemma ShiftChain(p: Result<real>, q: Result<real>, r: Result<real>, a: real, b: real)
    requires p == Shift(a, q) && q == Shift(b, r)
    ensures p == Shift(a + b, r)
  {
  }

  /**
   * What `parse_time` computes for the text from index `i` on: the sum
   * of number times unit scale over its terms, or the first error met.
   */
  function ParseFrom(s: string, i: nat): (r: Result<real>)
    requires i <= |s|
    decreases |s| - i
  {
    if i == |s| then Ok(0.0)
    else
      var p := NumberAt(s, i);
      if p.None? then Err(NotANumber(s[i..]))
      else
        var x := p.value.0;
        var e := p.value.1;
        if e == |s| then Ok(x)
        else if !IsUnit(s[e]) then Err(UnknownUnit(s[e]))
        else Shift(InSeconds(x, s[e]), ParseFrom(s, e + 1))
  }

  function Parse(s: string): Result<real>
  {
    ParseFrom(s, 0)
  }

  /** One term "<number><unit>" read at `i` contributes its seconds to the rest of the parse. */
  lemma ParseFromTerm(s: string, i: nat, x: real, e: nat)
    requires i < |s| && NumberAt(s, i) == Some((x, e)) && e < |s| && IsUnit(s[e])
    ensures ParseFrom(s, i) == Shift(InSeconds(x, s[e]), ParseFrom(s, e + 1))
  {
  }

  /** "Not a number" carries a suffix of the text at which no number starts. */
  lemma {:induction false} NotANumberPointsIntoText(s: string, i: nat)
    requires i <= |s|
    ensures ParseFrom(s, i).Err? && ParseFrom(s, i).error.NotANumber? ==>
              exists k :: i <= k < |s| && s[k..] == ParseFrom(s, i).error.rest && NumberAt(s, k).None?
    decreases |s| - i
  {
    if i < |s| && NumberAt(s, i).Some? {
      var (x, e) := NumberAt(s, i).value;
      if e < |s| && IsUnit(s[e]) {
        assert ParseFrom(s, i) == Shift(InSeconds(x, s[e]), ParseFrom(s, e + 1));
        NotANumberPointsIntoText(s, e + 1);
      }
    }
  }

  /** "Unknown time unit" carries a character of the text that is no unit. */
  lemma {:induction false} UnknownUnitPointsIntoText(s: string, i: nat)
    requires i <= |s|
    ensures ParseFrom(s, i).Err? && ParseFrom(s, i).error.UnknownUnit? ==>
              !IsUnit(ParseFrom(s, i).error.unit) && exists k :: i <= k < |s| && s[k] == ParseFrom(s, i).error.unit
    decreases |s| - i
  {
    if i < |s| && NumberAt(s, i).Some? {
      var (x, e) := NumberAt(s, i).value;
      if e < |s| && IsUnit(s[e]) {
        assert ParseFrom(s, i) == Shift(InSeconds(x, s[e]), ParseFrom(s, e + 1));
        UnknownUnitPointsIntoText(s, e + 1);
      }
    }
  }

  /**
   * `parse_time`: walks a cursor through `text`, adding each term to a
   * running total, and stops at the first malformed term.
   */
  method ParseTime(text: string) returns (r: Result<real>)
    ensures r == Parse(text)
  {
    var result := 0.0;
    var cursor := 0;
    while cursor < |text|
      invariant 0 <= cursor <= |text|
      invariant Parse(text) == Shift(result, ParseFrom(text, cursor))
      decreases |text| - cursor
    {
      var number := NumberAt(text, cursor);
      if number.None? {
        return Err(NotANumber(text[cursor..]));
      }
      var (x, end) := number.value;
      if end == |text| {
        result := result + x;
      } else {
        if !IsUnit(text[end]) {
          return Err(UnknownUnit(text[end]));
        }
        result := result + InSeconds(x, text[end]);
      }
      cursor := end;
      if cursor < |text| {
        cursor := cursor + 1;
      }
    }
    return Ok(result);
  }
}

/**
 * Durations written as terms "<digits><unit>", and what `parse_time`
 * makes of them.
 */
module Durations {
  import opened TimeParser

  /** One term of a duration: a run of decimal digits and a unit character. */
  datatype Term = Term(numeral: string, unit: char)

  predicate WellFormed(t: Term)
  {
    |t.numeral| > 0 && AllDigits(t.numeral) && IsUnit(t.unit)
  }

  /** The text of a sequence of terms, each numeral followed by its unit. */
  function Format(ts: seq<Term>): string
  {
    if ts == [] then [] else ts[0].numeral + [ts[0].unit] + Format(ts[1..])
  }

  /** The number of seconds a sequence of terms stands for. */
  function Total(ts: seq<Term>): real
    requires forall k :: 0 <= k < |ts| ==> WellFormed(ts[k])
  {
    if ts == [] then 0.0
    else
      assert WellFormed(ts[0]);
      InSeconds(NumeralValue(ts[0].numeral), ts[0].unit) + Total(ts[1..])
  }

  /** `DigitsFrom` stops exactly at the first non-digit. */
  lemma {:induction false} DigitsFromStops(s: string, i: nat, j: nat)
    requires i <= j <= |s|
    requires forall k :: i <= k < j ==> IsDigit(s[k])
    requires j < |s| ==> !IsDigit(s[j])
    ensures DigitsFrom(s, i) == j
    decreases j - i
  {
    if i < j {
      DigitsFromStops(s, i + 1, j);
    }
  }

  /** The scan of a mantissa over a digit run that no point follows takes the whole run. */
  lemma {:induction false} MantissaOverDigits(s: string, a: nat, j: nat, n: nat)
    requires a <= j <= n <= |s| && a < n
    requires forall k :: a <= k < n ==> IsDigit(s[k])
    requires n < |s| ==> !IsDigit(s[n]) && s[n] != '.'
    ensures AllDigits(s[a..j]) && MantissaFrom(s, a, j) == Some((NumeralValue(s[a..n]), n))
    decreases n - j
  {
    assert AllDigits(s[a..j]) by {
      forall k | 0 <= k < j - a ensures IsDigit(s[a..j][k]) {
        assert s[a..j][k] == s[a + k];
      }
    }
    if j < n {
      MantissaOverDigits(s, a, j + 1, n);
    }
  }

  /**
   * A run of digits that is followed by the end of the text or by a
   * character that is neither a digit nor a point is read by `strtof`
   * as exactly that whole number.
   */
  lemma NumeralAt(s: string, i: nat, d: string)
    requires |d| > 0 && AllDigits(d)
    requires i + |d| <= |s| && s[i..i + |d|] == d
    requires i + |d| < |s| ==> !IsDigit(s[i + |d|]) && s[i + |d|] != '.'
    ensures NumberAt(s, i) == Some((NumeralValue(d), i + |d|))
  {
    assert s[i] == d[0];
    forall k | i <= k < i + |d| ensures IsDigit(s[k]) {
      assert s[k] == d[k - i];
    }
    MantissaOverDigits(s, i, i, i + |d|);
  }

  /** Where `d`, `u` and `rest` sit one after another in `s`, each sits at its own offset. */
  lemma SplitTerm(s: string, i: nat, d: string, u: char, rest: string)
    requires i + |d| + 1 + |rest| <= |s| && s[i..i + |d| + 1 + |rest|] == d + [u] + rest
    ensures s[i..i + |d|] == d && s[i + |d|] == u
    ensures s[i + |d| + 1..i + |d| + 1 + |rest|] == rest
  {
    var f := d + [u] + rest;
    assert s[i..i + |d|] == f[..|d|];
    assert s[i + |d|] == f[|d|];
    assert s[i + |d| + 1..i + |d| + 1 + |rest|] == f[|d| + 1..];
  }

  /** A numeral and a unit at index `i` add their seconds to what `parse_time` makes of the text after them. */
  lemma TermStep(s: string, i: nat, d: string, u: char)
    requires |d| > 0 && AllDigits(d) && IsUnit(u)
    requires i + |d| < |s| && s[i..i + |d|] == d && s[i + |d|] == u
    ensures ParseAt(s)(i) == Shift(InSeconds(NumeralValue(d), u), ParseAt(s)(i + |d| + 1))
  {
    NumeralAt(s, i, d);
    ParseFromTerm(s, i, NumeralValue(d), i + |d|);
  }

  /** `f` at index `i` of `s` adds the terms `ts` one after another to `f` further on. */
  predicate Steps(f: nat -> Result<real>, i: nat, ts: seq<Term>)
    decreases |ts|
  {
    ts == [] ||
    (WellFormed(ts[0]) &&
     var e := i + |ts[0].numeral|;
     && f(i) == Shift(InSeconds(NumeralValue(ts[0].numeral), ts[0].unit), f(e + 1))
     && Steps(f, e + 1, ts[1..]))
  }

  lemma StepsCons(f: nat -> Result<real>, i: nat, ts: seq<Term>)
    requires ts != [] && WellFormed(ts[0])
    requires f(i) == Shift(InSeconds(NumeralValue(ts[0].numeral), ts[0].unit), f(i + |ts[0].numeral| + 1))
    requires Steps(f, i + |ts[0].numeral| + 1, ts[1..])
    ensures Steps(f, i, ts)
  {
  }

  /** Steps add up to the total of the terms. */
  lemma {:induction false} StepsTotal(f: nat -> Result<real>, i: nat, ts: seq<Term>)
    requires forall k :: 0 <= k < |ts| ==> WellFormed(ts[k])
    requires Steps(f, i, ts)
    ensures f(i) == Shift(Total(ts), f(i + |Format(ts)|))
    decreases |ts|
  {
    if ts == [] {
      assert Total(ts) == 0.0 && |Format(ts)| == 0;
    } else {
      var d, u := ts[0].numeral, ts[0].unit;
      var e := i + |d|;
      assert Format(ts) == d + [u] + Format(ts[1..]);
      StepsTotal(f, e + 1, ts[1..]);
      ShiftChain(f(i), f(e + 1), f(i + |Format(ts)|), InSeconds(NumeralValue(d), u), Total(ts[1..]));
    }
  }

  /** `ParseFrom` on `s`, as a total function of the index. */
  function ParseAt(s: string): nat -> Result<real>
  {
    (k: nat) => if k <= |s| then ParseFrom(s, k) else Ok(0.0)
  }

  lemma ParseAtShift(s: string, i: nat, j: nat, a: real)
    requires i <= |s| && j <= |s| && ParseAt(s)(i) == Shift(a, ParseAt(s)(j))
    ensures ParseFrom(s, i) == Shift(a, ParseFrom(s, j))
  {
  }

  /** From index `i` of `s` on, the numerals and units of `ts` follow one another. */
  predicate Spells(s: string, i: nat, ts: seq<Term>)
    decreases |ts|
  {
    ts == [] ||
    (var e := i + |ts[0].numeral|;
     && e < |s| && s[i..e] == ts[0].numeral && s[e] == ts[0].unit
     && Spells(s, e + 1, ts[1..]))
  }

  lemma {:induction false} FormatSpells(ts: seq<Term>, s: string, i: nat)
    requires i + |Format(ts)| <= |s| && s[i..i + |Format(ts)|] == Format(ts)
    ensures Spells(s, i, ts)
    decreases |ts|
  {
    if ts != [] {
      var d, u := ts[0].numeral, ts[0].unit;
      assert Format(ts) == d + [u] + Format(ts[1..]);
      SplitTerm(s, i, d, u, Format(ts[1..]));
      FormatSpells(ts[1..], s, i + |d| + 1);
    }
  }

  lemma {:induction false} SpellsSteps(ts: seq<Term>, s: string, i: nat)
    requires forall k :: 0 <= k < |ts| ==> WellFormed(ts[k])
    requires Spells(s, i, ts)
    ensures Steps(ParseAt(s), i, ts)
    decreases |ts|
  {
    if ts != [] {
      var d, u := ts[0].numeral, ts[0].unit;
      assert WellFormed(ts[0]);
      TermStep(s, i, d, u);
      SpellsSteps(ts[1..], s, i + |d| + 1);
      StepsCons(ParseAt(s), i, ts);
    }
  }

  /** Where the text of well-formed terms sits in `s`, `parse_time` reads it term by term and adds up their total. */
  lemma FormatTotal(ts: seq<Term>, s: string, i: nat)
    requires forall k :: 0 <= k < |ts| ==> WellFormed(ts[k])
    requires i + |Format(ts)| <= |s| && s[i..i + |Format(ts)|] == Format(ts)
    ensures ParseAt(s)(i) == Shift(Total(ts), ParseAt(s)(i + |Format(ts)|))
  {
    FormatSpells(ts, s, i);
    SpellsSteps(ts, s, i);
    StepsTotal(ParseAt(s), i, ts);
  }

  /** The text of well-formed terms parses to their total. */
  lemma ParseFromFormat(ts: seq<Term>, s: string, i: nat)
    requires forall k :: 0 <= k < |ts| ==> WellFormed(ts[k])
    requires i + |Format(ts)| <= |s| && s[i..i + |Format(ts)|] == Format(ts)
    ensures ParseFrom(s, i) == Shift(Total(ts), ParseFrom(s, i + |Format(ts)|))
  {
    FormatTotal(ts, s, i);
    ParseAtShift(s, i, i + |Format(ts)|, Total(ts));
  }

  /** Round trip: formatting well-formed terms and parsing the text gives their total. */
  lemma ParseFormat(ts: seq<Term>)
    requires forall k :: 0 <= k < |ts| ==> WellFormed(ts[k])
    ensures Parse(Format(ts)) == Ok(Total(ts))
  {
    var s := Format(ts);
    assert s[0..|s|] == s;
    ParseFromFormat(ts, s, 0);
    assert ParseFrom(s, |s|) == Ok(0.0);
  }

  /** A bare number at the end of the text counts as seconds (the '\0' case). */
  lemma ParseBareNumeral(s: string, i: nat)
    requires i < |s| && AllDigits(s[i..])
    ensures ParseFrom(s, i) == Ok(NumeralValue(s[i..]))
  {
    assert s[i..i + |s[i..]|] == s[i..];
    NumeralAt(s, i, s[i..]);
  }

  lemma OneHourThirtyMinutes()
    ensures Parse("1h30m") == Ok(5400.0)
  {
    var ts := [Term("1", 'h'), Term("30", 'm')];
    assert Format(ts) == "1h30m";
    assert NumeralValue("30") == 30.0 by {
      assert "30"[..1] == "3";
    }
    ParseFormat(ts);
  }

  /** After a unit the cursor moves on; a trailing bare number is seconds. */
  lemma OneHourThirty()
    ensures Parse("1h30") == Ok(3630.0)
  {
    var s := "1h30";
    var ts := [Term("1", 'h')];
    assert Format(ts) == s[0..2];
    assert s[2..] == "30";
    assert NumeralValue("30") == 30.0 by {
      assert "30"[..1] == "3";
    }
    ParseBareNumeral(s, 2);
    ParseFromFormat(ts, s, 0);
  }

  lemma NinetySeconds()
    ensures Parse("90s") == Ok(90.0)
  {
    assert NumeralValue("90") == 90.0 by {
      assert "90"[..1] == "9";
    }
    ParseFormat([Term("90", 's')]);
  }

  /** A number right after a unit is required: "1hm" fails at "m". */
  lemma MissingNumberAfterUnit()
    ensures Parse("1hm") == Err(NotANumber("m"))
  {
    var s := "1hm";
    NumeralAt(s, 0, "1");
    assert SpacesFrom(s, 2) == 2;
    assert MantissaAt(s, 2) == 2;
    assert ParseFrom(s, 2) == Err(NotANumber(s[2..]));
  }

  lemma UnknownUnitX()
    ensures Parse("1x") == Err(UnknownUnit('x'))
  {
    NumeralAt("1x", 0, "1");
  }

  lemma NotANumberAbc()
    ensures Parse("abc") == Err(NotANumber("abc"))
  {
    var s := "abc";
    assert SpacesFrom(s, 0) == 0;
    assert MantissaAt(s, 0) == 0;
    assert s[0..] == s;
  }

  /** `strtof` takes a fraction: "1.5m" is ninety seconds. */
  lemma OneAndAHalfMinutes()
    ensures Parse("1.5m") == Ok(90.0)
  {
    var s := "1.5m";
    assert DigitsFrom(s, 2) == 3;
    assert s[0..1] == "1" && s[2..3] == "5";
    assert FractionValue("5") == 0.5 by {
      assert "5"[1..] == [];
    }
    assert NumberAt(s, 0) == Some((1.5, 3));
    ParseFromTerm(s, 0, 1.5, 3);
  }

  /** `strtof` takes a sign, so a duration may be negative: "-10s" is minus ten seconds. */
  lemma MinusTenSeconds()
    ensures Parse("-10s") == Ok(-10.0)
  {
    var s := "-10s";
    assert s[1..3] == "10";
    assert NumeralValue("10") == 10.0 by {
      assert "10"[..1] == "1";
    }
    MantissaOverDigits(s, 1, 1, 3);
    assert NumberAt(s, 0) == Some((-10.0, 3));
    ParseFromTerm(s, 0, -10.0, 3);
  }
}
